=== FILE: README.md ===
# Modbus slave registers and task lifecycle, in Dafny

This project models the register-access layer and the Modbus task of a
FreeRTOS/libopencm3 Modbus slave demo (`modbus-libopencm3/modbus-freertos.c`).

- **Register store** (`registers.dfy`, module `Registers`). There are two static
  banks of 16-bit cells. The input bank has 64 cells and starts at protocol
  address 1000. The holding bank has 32 cells and starts at address 1. The file
  also holds the freemodbus status codes and the register access modes.
- **Big-endian packing** (`big_endian.dfy`, module `BigEndian`). Each cell
  travels as two bytes, high byte first (section 4.2 of the Modbus Application
  Protocol Specification V1.1b3). The C operators `>> 8`, `& 0xFF` and
  `<< 8 |` are modelled as division by 256, remainder by 256, and
  `hi * 256 + lo`. Bit-vector lemmas prove that these readings agree with the
  operators on 16-bit bit-vectors; the step from `USHORT` to bit-vector is not
  itself proved.
- **Register callbacks** (`callbacks.dfy`, module `Callbacks`). These are the
  four callbacks freemodbus calls while it serves a request. Each is a pure
  function returning `Reply(status, written, store)`, the last being the store
  afterwards. The input and holding callbacks also have imperative twins,
  `ServeInput` and `ServeHolding`, whose `while` loops mirror the C loops and
  are proved equal to the functions.
- **Modbus task** (`modbus_task.dfy`, module `ModbusTask`). One pass of the
  task's endless loop is a function from three things to a `Cycle`:
  - the status values of `eMBInit`, `eMBSetSlaveID` and `eMBEnable`;
  - the sequence of values that the loop test reads from holding cell 0;
  - the register store.

  A `Cycle` holds the calls made (a trace), the number of polls, whether the
  cycle reached its final `vTaskDelay(50)`, and the store afterwards.
  `TaskCycle` replays the C control flow and is proved equal to that
  function. `PollLoop` replays the do-while loop and is proved equal to
  `PollsUntilStop` and `AfterPolling`, the loop's part of the function. `RunRounds` chains a bounded number
  of cycles.

Address and count parameters are integers in `0..65535`. The range tests add
them in unbounded integers, because C promotes `USHORT` operands to `int`
before adding, so `usAddress + usNRegs` cannot wrap. The input-bank poll
counter is a `USHORT`, and its increment wraps modulo 2^16 explicitly.

Three facts about the C code that a reader might not expect:
- The task calls `eMBDisable` and `eMBClose` even when `eMBSetSlaveID` or
  `eMBEnable` fails. Only an `eMBInit` failure goes straight to the delay.
- The range tests cannot wrap, because the `USHORT` operands are promoted to
  `int` before the addition.
- The poll counter reads back as the number of polls modulo 2^16, and only
  when the counter started from its zero initial value.

## Model

| member | source | states |
|---|---|---|
| Registers.InitialStore | modbus-libopencm3/modbus-freertos.c:68-71 | The static banks have 64 input and 32 holding cells, all initially zero |
| BigEndian.HighByte | modbus-libopencm3/modbus-freertos.c:196 | The high byte `v >> 8` is the unique byte `r` with `256*r <= v < 256*r + 256` |
| BigEndian.LowByte | modbus-libopencm3/modbus-freertos.c:197 | The low byte `v & 0xFF` is the unique byte congruent to `v` modulo 256 |
| BigEndian.Combine | modbus-libopencm3/modbus-freertos.c:234-235 | The cell built from a high and a low byte has exactly those bytes as its high and low byte |
| BigEndian.ShiftMaskAreDivMod | modbus-libopencm3/modbus-freertos.c:196-197 | On 16-bit words, `v >> 8` is `v / 256` and `v & 0xFF` is `v % 256` |
| BigEndian.ShiftOrIsAddition | modbus-libopencm3/modbus-freertos.c:234-235 | Shifting the high byte left by 8 and ORing in the low byte is `hi * 256 + lo` |
| BigEndian.CombineSplit | modbus-libopencm3/modbus-freertos.c:224-225 | Splitting a cell into high and low bytes and joining them gives the cell back |
| BigEndian.SplitCombine | modbus-libopencm3/modbus-freertos.c:234-235 | Joining two bytes into a cell and splitting it gives the same two bytes back |
| BigEndian.Pack | modbus-libopencm3/modbus-freertos.c:194-200 | The wire image has exactly two bytes per cell: byte 2i is the high byte and byte 2i+1 the low byte of cell i |
| BigEndian.Unpack | modbus-libopencm3/modbus-freertos.c:232-238 | An even-length byte string yields half as many cells; cell i is bytes 2i and 2i+1, high byte first |
| BigEndian.UnpackPack | modbus-libopencm3/modbus-freertos.c:221-238 | Decoding the wire image of any cells gives those cells back |
| BigEndian.PackUnpack | modbus-libopencm3/modbus-freertos.c:221-238 | Encoding the cells decoded from any even-length byte string gives that string back |
| Callbacks.InputCallback | modbus-libopencm3/modbus-freertos.c:185-208 | Success iff `address >= 1000 && address + count <= 1064`, computed without wrap. Otherwise MB_ENOREG with nothing written. On success exactly `2*count` bytes are written. The store is never changed |
| Callbacks.InputReadImage | modbus-libopencm3/modbus-freertos.c:191-200 | On an accepted input read every index `address - 1000 + i` lies in [0, 64). Byte 2i is the high byte and byte 2i+1 the low byte of that cell, in ascending address order |
| Callbacks.HoldingCallback | modbus-libopencm3/modbus-freertos.c:210-246 | Success iff `address >= 1 && address + count <= 33`. A rejected request writes no bytes and changes no cell, so there is no partial write. A read writes `2*count` bytes and changes nothing. A write writes no bytes and leaves the input bank unchanged |
| Callbacks.HoldingReadImage | modbus-libopencm3/modbus-freertos.c:216-229 | On an accepted holding read every index `address - 1 + i` lies in [0, 32). Byte 2i is the high byte and byte 2i+1 the low byte of that cell, in ascending address order |
| Callbacks.HoldingWriteCells | modbus-libopencm3/modbus-freertos.c:231-238 | An accepted holding write sets `holding[address-1+i]` to `buf[2i]*256 + buf[2i+1]` for each `i < count` and leaves every other holding cell unchanged |
| Callbacks.CoilsCallback | modbus-libopencm3/modbus-freertos.c:249-253 | Every coil access returns MB_ENOREG, writes no bytes and changes no register |
| Callbacks.DiscreteCallback | modbus-libopencm3/modbus-freertos.c:255-258 | Every discrete-input access returns MB_ENOREG, writes no bytes and changes no register |
| Callbacks.ReadLoop | modbus-libopencm3/modbus-freertos.c:194-200 | The cell-by-cell read loop emits exactly the big-endian image of the span it walks |
| Callbacks.WriteLoop | modbus-libopencm3/modbus-freertos.c:232-238 | The cell-by-cell write loop replaces exactly the span with the cells decoded from the first `2*count` buffer bytes, and keeps every other cell |
| Callbacks.ServeInput | modbus-libopencm3/modbus-freertos.c:185-208 | The imperative input callback (test, then loop) returns the same status and bytes as the functional model |
| Callbacks.ServeHolding | modbus-libopencm3/modbus-freertos.c:210-246 | The imperative holding callback (test, mode switch, loop) returns the same status, bytes and holding bank as the functional model |
| Callbacks.InputSpanWithinBank | modbus-libopencm3/modbus-freertos.c:191 | A non-empty input request is accepted exactly when its first and last addresses both name input registers |
| Callbacks.HoldingSpanWithinBank | modbus-libopencm3/modbus-freertos.c:216 | A non-empty holding request is accepted exactly when its first and last addresses both name holding registers |
| Callbacks.HoldingRoundTrip | modbus-libopencm3/modbus-freertos.c:221-238 | An in-range write of `2*count` bytes succeeds, and reading the same span afterwards returns exactly those bytes |
| Callbacks.WriteBackReadIsIdentity | modbus-libopencm3/modbus-freertos.c:221-238 | Writing back the bytes just read from a span leaves the store unchanged |
| Callbacks.WriteFramesDisjointReads | modbus-libopencm3/modbus-freertos.c:231-238 | After a write, a read of any span that does not overlap it gives the same status and bytes as before the write |
| Callbacks.OverrunningWriteChangesNothing | modbus-libopencm3/modbus-freertos.c:216-244 | A write of 5 cells at address 30 overruns the 32-cell bank: it returns MB_ENOREG and changes no cell |
| ModbusTask.PollsUntilStop | modbus-libopencm3/modbus-freertos.c:136-144 | The do-while loop stops right after the first poll whose flag test reads 0. Every earlier test read non-zero. If no 0 is read, there is one poll per observation |
| ModbusTask.RunCycle | modbus-libopencm3/modbus-freertos.c:113-150 | Each cycle starts with `eMBInit`. It is unfinished only when all three set-up calls succeeded and the flag is never read as 0. With a failed set-up call there are no polls and the store is unchanged. The counter advances by the number of polls modulo 2^16 |
| ModbusTask.CycleStopsAtFirstClear | modbus-libopencm3/modbus-freertos.c:135-144 | When set-up succeeded and the loop ended, it polled at least once, stopped right after the first flag test that read 0 (all earlier tests read non-zero), and the run flag is left cleared |
| ModbusTask.CycleWritesOnlyControlCells | modbus-libopencm3/modbus-freertos.c:135-142 | The task itself writes no register other than input cell 0 (the poll counter) and holding cell 0 (the run flag) |
| ModbusTask.PollLoop | modbus-libopencm3/modbus-freertos.c:135-144 | The loop sets the flag to 1, then does poll, counter increment, flag test in that order. It makes `PollsUntilStop(flags)` polls, exits iff a 0 is read, and leaves the counter and flag as the functional model says |
| ModbusTask.TaskCycle | modbus-libopencm3/modbus-freertos.c:113-150 | The nested if/else-if structure of the task produces exactly the cycle of the functional model |
| ModbusTask.Increment | modbus-libopencm3/modbus-freertos.c:142 | `usRegInputBuf[0]++` on a `USHORT` adds one, except that 65535 wraps to 0 |
| ModbusTask.RunFlagSetOnEntry | modbus-libopencm3/modbus-freertos.c:135-144 | The flag is set to 1 before the first poll, so its value at the start of a cycle (a 0 left by the previous cycle) changes neither the calls, nor the polls, nor whether the cycle ends. A ready cycle with any observation polls at least once; with none, it leaves the flag at 1 |
| ModbusTask.RunRounds | modbus-libopencm3/modbus-freertos.c:113-150 | Consecutive passes of the outer loop keep the store valid; the run is empty exactly when there are no rounds, and otherwise begins with `eMBInit` |
| ModbusTask.RoundsAdvanceCounter | modbus-libopencm3/modbus-freertos.c:113-150 | Over consecutive cycles of the outer loop, the poll counter advances by the total number of polls modulo 2^16 |
| ModbusTask.RoundsInitOncePerRound | modbus-libopencm3/modbus-freertos.c:113-150 | If every round of the outer loop reached its delay, `eMBInit` was called once per round and the trace ends with `vTaskDelay(50)` |
| ModbusTask.CycleStartsOnce | modbus-libopencm3/modbus-freertos.c:116 | Every cycle calls `eMBInit` exactly once |
| ModbusTask.PollsRecorded | modbus-libopencm3/modbus-freertos.c:136-144 | The trace contains exactly as many `eMBPoll` calls as the cycle counts |
| ModbusTask.SetupStopsAtFirstFailure | modbus-libopencm3/modbus-freertos.c:116-132 | `eMBSetSlaveID` is called iff `eMBInit` succeeded, and `eMBEnable` iff both earlier calls succeeded; the calls that run come first in the order init, set-slave-ID, enable |
| ModbusTask.CycleTraceShape | modbus-libopencm3/modbus-freertos.c:116-149 | The exact call sequence of each path: init fails gives init, delay; set-slave-ID fails gives init, set-ID, disable, close, delay; enable fails gives init, set-ID, enable, disable, close, delay; when all succeed, the three set-up calls are followed only by polls and, if the loop ended, three more calls (disable, close, delay) |
| ModbusTask.InitFailureSkipsShutdown | modbus-libopencm3/modbus-freertos.c:116-149 | If `eMBInit` fails there is no `eMBSetSlaveID`, no `eMBEnable`, no poll, no `eMBDisable` and no `eMBClose`; the cycle ends with `vTaskDelay(50)` |
| ModbusTask.ShutdownFollowsInit | modbus-libopencm3/modbus-freertos.c:120-149 | Once `eMBInit` succeeded, a finished cycle ends with `eMBDisable`, `eMBClose`, `vTaskDelay(50)`, even if `eMBSetSlaveID` or `eMBEnable` failed |
| ModbusTask.PollOnlyWhenReady | modbus-libopencm3/modbus-freertos.c:120-145 | `eMBPoll` is called only when init, set-slave-ID and enable all succeeded |
| ModbusTask.FinishedCycleEndsWithDelay | modbus-libopencm3/modbus-freertos.c:149 | Every finished cycle ends with `vTaskDelay(50)` |
| ModbusTask.MasterClearsRunFlag | modbus-libopencm3/modbus-freertos.c:231-238 | A holding write of bytes `[0, 0]` at address 1 clears holding cell 0, the run flag the poll loop tests |
| ModbusTask.PollCountVisibleToMaster | modbus-libopencm3/modbus-freertos.c:139-142 | Start from the zero-initialised store and run a cycle with n polls. A master reading input register 1000 then receives the big-endian image of n modulo 2^16 |

## Left out

- `test-ports-F4/test-ports.c`: it only toggles GPIO pins and busy-waits, so it has no computable behaviour.
- `main`, `SetupHardware`, the FreeRTOS hooks and `vTaskApplication`: these are task creation, watchdog and interrupt-priority set-up, and an idle loop.
- The freemodbus library (`eMBInit`, `eMBSetSlaveID`, `eMBEnable`, `eMBPoll`, `eMBDisable`, `eMBClose`): its source is not part of this model. `mb.h` and `mbport.h` are not part of this model either; the status codes and the mode and parity enumerations follow their declarations. The set-up calls appear only through the status values they return. The results of `eMBPoll`, `eMBDisable` and `eMBClose` are ignored by the task, and so by the model.
- Requests served inside `eMBPoll`: the task model does not thread them through the store. The callbacks are modelled on their own, and the run flag is an externally supplied sequence of observed values.
- Concurrent writes to holding cell 0 by other tasks: there are no interleaving semantics, only the sequence of values the loop test reads.
- The real-time effect of `vTaskDelay`: it is only a trace event.
- The infinite outer `for (;;)`: the model runs one cycle (`RunCycle`) or a bounded number of cycles (`RunRounds`). A poll loop that never reads 0 is reported as unfinished after the observations are used up.
- The frame buffer as raw memory: a read is modelled by the bytes it writes, and a write by the bytes it consumes. An accepted write needs `2*count` buffer bytes; that is the caller's obligation in C.

=== FILE: big_endian.dfy ===
/**
  Big-endian packing of 16-bit register values into bytes, as required by
  section 4.2 of the Modbus Application Protocol Specification V1.1b3: the
  high-order byte of a register travels first.
 */
module BigEndian {
  import opened Registers

  /** `(unsigned char)(v >> 8)`. */
  function HighByte(v: u16): (r: byte)
    ensures r * 0x100 <= v < r * 0x100 + 0x100
  {
    v / 0x100
  }

  /** `(unsigned char)(v & 0xFF)`. */
  function LowByte(v: u16): (r: byte)
    ensures (v - r) % 0x100 == 0
  {
    v % 0x100
  }

  /** `cell = hi << 8; cell |= lo;` on a `USHORT` cell. */
  function Combine(hi: byte, lo: byte): (r: u16)
    ensures HighByte(r) == hi && LowByte(r) == lo
  {
    hi * 0x100 + lo
  }

  /**
    The three functions above read the C operators arithmetically. On 16-bit
    words the shift and the mask are division and remainder by 256, and the
    OR of a shifted high byte with a low byte adds them, because their bits
    are disjoint.
   */
  lemma ShiftMaskAreDivMod(v: bv16)
    ensures v >> 8 == v / 0x100
    ensures v & 0xFF == v % 0x100
  {
  }

  lemma ShiftOrIsAddition(hi: bv8, lo: bv8)
    ensures ((hi as bv16) << 8) | (lo as bv16) == (hi as bv16) * 0x100 + (lo as bv16)
  {
  }

  /** Splitting a cell into bytes and joining them again gives the cell back. */
  lemma CombineSplit(v: u16)
    ensures Combine(HighByte(v), LowByte(v)) == v
  {
  }

  /** Joining two bytes and splitting the cell gives the bytes back. */
  lemma SplitCombine(hi: byte, lo: byte)
    ensures HighByte(Combine(hi, lo)) == hi
    ensures LowByte(Combine(hi, lo)) == lo
  {
  }

  /**
    The wire image of consecutive cells: two bytes per cell, high byte first,
    cells in ascending address order.
   */
  function Pack(cells: seq<u16>): (bytes: seq<byte>)
    ensures |bytes| == 2 * |cells|
    ensures forall i :: 0 <= i < |cells| ==>
              bytes[2 * i] == HighByte(cells[i]) && bytes[2 * i + 1] == LowByte(cells[i])
  {
    if cells == [] then []
    else [HighByte(cells[0]), LowByte(cells[0])] + Pack(cells[1..])
  }

  /** The cells carried by a wire image of even length. */
  function Unpack(bytes: seq<byte>): (cells: seq<u16>)
    requires |bytes| % 2 == 0
    ensures 2 * |cells| == |bytes|
    ensures forall i :: 0 <= i < |cells| ==> cells[i] == Combine(bytes[2 * i], bytes[2 * i + 1])
  {
    if bytes == [] then []
    else [Combine(bytes[0], bytes[1])] + Unpack(bytes[2..])
  }

  /** Any byte sequence with the shape of a wire image is the image of its cells. */
  lemma PackedShape(cells: seq<u16>, bytes: seq<byte>)
    requires |bytes| == 2 * |cells|
    requires forall i :: 0 <= i < |cells| ==>
               bytes[2 * i] == HighByte(cells[i]) && bytes[2 * i + 1] == LowByte(cells[i])
    ensures bytes == Pack(cells)
  {
    var p := Pack(cells);
    forall k | 0 <= k < |bytes|
      ensures bytes[k] == p[k]
    {
      var i := k / 2;
      assert k == 2 * i || k == 2 * i + 1;
      assert 0 <= i < |cells|;
      if k == 2 * i {
        assert bytes[2 * i] == HighByte(cells[i]) == p[2 * i];
      } else {
        assert bytes[2 * i + 1] == LowByte(cells[i]) == p[2 * i + 1];
      }
    }
  }

  /** Packing one more cell appends its two bytes. */
  lemma PackSnoc(cells: seq<u16>, v: u16)
    ensures Pack(cells + [v]) == Pack(cells) + [HighByte(v), LowByte(v)]
  {
    var lhs := Pack(cells + [v]);
    var rhs := Pack(cells) + [HighByte(v), LowByte(v)];
    forall i | 0 <= i < |cells| + 1
      ensures rhs[2 * i] == HighByte((cells + [v])[i]) && rhs[2 * i + 1] == LowByte((cells + [v])[i])
    {
    }
    PackedShape(cells + [v], rhs);
  }

  /** Unpacking a packed image recovers the cells. */
  lemma UnpackPack(cells: seq<u16>)
    ensures Unpack(Pack(cells)) == cells
  {
    var u := Unpack(Pack(cells));
    forall i | 0 <= i < |cells|
      ensures u[i] == cells[i]
    {
      CombineSplit(cells[i]);
    }
  }

  /** Packing unpacked cells recovers the bytes. */
  lemma PackUnpack(bytes: seq<byte>)
    requires |bytes| % 2 == 0
    ensures Pack(Unpack(bytes)) == bytes
  {
    var cells := Unpack(bytes);
    forall i | 0 <= i < |cells|
      ensures bytes[2 * i] == HighByte(cells[i]) && bytes[2 * i + 1] == LowByte(cells[i])
    {
      SplitCombine(bytes[2 * i], bytes[2 * i + 1]);
    }
    PackedShape(cells, bytes);
  }
}

=== FILE: callbacks.dfy ===
/**
  The register callbacks the freemodbus stack invokes while it serves a
  request: input registers are read-only, holding registers are read or
  written, coils and discrete inputs have no storage. A request names a
  protocol start address and a count of consecutive cells; it is served only
  when the whole span lies inside one bank, and the range test happens before
  any cell or buffer byte is touched.
 */
module Callbacks {
  import opened Registers
  import opened BigEndian

  /**
    What a callback leaves behind: the status it returns, the bytes it wrote
    into the frame buffer, in order, and the register store afterwards.
   */
  datatype Reply = Reply(status: ErrorCode, written: seq<byte>, store: Store)

  /**
    The range test of the input callback. The two `USHORT` operands of the
    sum are promoted to `int`, so the sum never wraps.
   */
  predicate InputSpanAccepted(address: u16, nregs: u16) {
    address >= InputStart && address + nregs <= InputStart + InputNRegs
  }

  /** The range test of the holding callback, in `int` likewise. */
  predicate HoldingSpanAccepted(address: u16, nregs: u16) {
    address >= HoldingStart && address + nregs <= HoldingStart + HoldingNRegs
  }

  /** Reading input registers: big-endian image of the span, nothing modified. */
  function InputCallback(s: Store, address: u16, nregs: u16): (r: Reply)
    requires s.Valid()
    ensures r.store == s
    ensures r.status == NoErr <==> 1000 <= address && address + nregs <= 1064
    ensures r.status != NoErr ==> r.status == NoReg && r.written == []
    ensures r.status == NoErr ==> |r.written| == 2 * nregs
  {
    if InputSpanAccepted(address, nregs) then
      var index := address - InputStart;
      Reply(NoErr, Pack(s.input[index .. index + nregs]), s)
    else
      Reply(NoReg, [], s)
  }

  /** `bank` with the cells from `index` on replaced by `cells`. */
  function Overwrite(bank: seq<u16>, index: nat, cells: seq<u16>): (r: seq<u16>)
    requires index + |cells| <= |bank|
    ensures |r| == |bank|
    ensures forall j :: 0 <= j < |bank| ==>
              r[j] == if index <= j < index + |cells| then cells[j - index] else bank[j]
  {
    bank[..index] + cells + bank[index + |cells|..]
  }

  /**
    Reading or writing holding registers. A write consumes `2 * nregs` bytes
    of the frame buffer, so an accepted write needs that many.
   */
  function HoldingCallback(s: Store, address: u16, nregs: u16, mode: RegisterMode, buffer: seq<byte>): (r: Reply)
    requires s.Valid()
    requires mode == WriteRegs && HoldingSpanAccepted(address, nregs) ==> |buffer| >= 2 * nregs
    ensures r.store.Valid() && r.store.input == s.input
    ensures r.status == NoErr <==> 1 <= address && address + nregs <= 33
    ensures r.status != NoErr ==> r.status == NoReg && r.written == [] && r.store == s
    ensures mode == ReadRegs ==> r.store == s
    ensures mode == ReadRegs && r.status == NoErr ==> |r.written| == 2 * nregs
    ensures mode == WriteRegs ==> r.written == []
  {
    if HoldingSpanAccepted(address, nregs) then
      var index := address - HoldingStart;
      match mode
      case ReadRegs =>
        Reply(NoErr, Pack(s.holding[index .. index + nregs]), s)
      case WriteRegs =>
        Reply(NoErr, [], s.(holding := Overwrite(s.holding, index, Unpack(buffer[..2 * nregs]))))
    else
      Reply(NoReg, [], s)
  }

  /** Coils have no storage: every access is refused and nothing changes. */
  function CoilsCallback(s: Store, address: u16, ncoils: u16, mode: RegisterMode, buffer: seq<byte>): (r: Reply)
    ensures r.status == NoReg
    ensures r.written == []
    ensures r.store == s
  {
    Reply(NoReg, [], s)
  }

  /** Discrete inputs have no storage: every access is refused and nothing changes. */
  function DiscreteCallback(s: Store, address: u16, ndiscrete: u16, buffer: seq<byte>): (r: Reply)
    ensures r.status == NoReg
    ensures r.written == []
    ensures r.store == s
  {
    Reply(NoReg, [], s)
  }

  /**
    An accepted input read touches only indices inside the bank and yields
    each cell of the span as its high byte then its low byte, in ascending
    address order.
   */
  lemma InputReadImage(s: Store, address: u16, nregs: u16)
    requires s.Valid()
    requires InputSpanAccepted(address, nregs)
    ensures var r := InputCallback(s, address, nregs);
            forall i :: 0 <= i < nregs ==>
              && 0 <= address - 1000 + i < 64
              && r.written[2 * i] == HighByte(s.input[address - 1000 + i])
              && r.written[2 * i + 1] == LowByte(s.input[address - 1000 + i])
  {
    var span := s.input[address - InputStart .. address - InputStart + nregs];
    var image := InputCallback(s, address, nregs).written;
    assert image == Pack(span);
    forall i | 0 <= i < nregs
      ensures image[2 * i] == HighByte(s.input[address - 1000 + i])
      ensures image[2 * i + 1] == LowByte(s.input[address - 1000 + i])
    {
      assert span[i] == s.input[address - 1000 + i];
    }
  }

  /** The same for an accepted holding read, on indices inside the holding bank. */
  lemma HoldingReadImage(s: Store, address: u16, nregs: u16, buffer: seq<byte>)
    requires s.Valid()
    requires HoldingSpanAccepted(address, nregs)
    ensures var r := HoldingCallback(s, address, nregs, ReadRegs, buffer);
            forall i :: 0 <= i < nregs ==>
              && 0 <= address - 1 + i < 32
              && r.written[2 * i] == HighByte(s.holding[address - 1 + i])
              && r.written[2 * i + 1] == LowByte(s.holding[address - 1 + i])
  {
    var span := s.holding[address - HoldingStart .. address - HoldingStart + nregs];
    var image := HoldingCallback(s, address, nregs, ReadRegs, buffer).written;
    assert image == Pack(span);
    forall i | 0 <= i < nregs
      ensures image[2 * i] == HighByte(s.holding[address - 1 + i])
      ensures image[2 * i + 1] == LowByte(s.holding[address - 1 + i])
    {
      assert span[i] == s.holding[address - 1 + i];
    }
  }

  /**
    An accepted holding write sets cell `address - 1 + i` from buffer bytes
    `2i` (high) and `2i + 1` (low), and leaves every other holding cell as it
    was.
   */
  lemma HoldingWriteCells(s: Store, address: u16, nregs: u16, buffer: seq<byte>)
    requires s.Valid()
    requires HoldingSpanAccepted(address, nregs) && |buffer| >= 2 * nregs
    ensures var r := HoldingCallback(s, address, nregs, WriteRegs, buffer);
            forall j :: 0 <= j < 32 ==>
              r.store.holding[j] ==
                if address - 1 <= j < address - 1 + nregs
                then Combine(buffer[2 * (j - address + 1)], buffer[2 * (j - address + 1) + 1])
                else s.holding[j]
  {
    var index := address - HoldingStart;
    var bytes := buffer[..2 * nregs];
    var cells := Unpack(bytes);
    var r := HoldingCallback(s, address, nregs, WriteRegs, buffer);
    assert r.store.holding == Overwrite(s.holding, index, cells);
    forall j | 0 <= j < 32 && index <= j < index + nregs
      ensures r.store.holding[j] == Combine(buffer[2 * (j - index)], buffer[2 * (j - index) + 1])
    {
      assert cells[j - index] == Combine(bytes[2 * (j - index)], bytes[2 * (j - index) + 1]);
    }
  }

  /**
    The `while (usNRegs > 0)` read loop shared by both banks: cell by cell,
    high byte then low byte, index and buffer pointer advancing together.
   */
  method ReadLoop(bank: seq<u16>, index: nat, nregs: u16) returns (out: seq<byte>)
    requires index + nregs <= |bank|
    ensures out == Pack(bank[index .. index + nregs])
  {
    var i := index;
    var n := nregs;
    out := [];
    while n > 0
      invariant 0 <= n <= nregs
      invariant i == index + (nregs - n)
      invariant out == Pack(bank[index .. i])
    {
      PackSnoc(bank[index .. i], bank[i]);
      assert bank[index .. i + 1] == bank[index .. i] + [bank[i]];
      out := out + [HighByte(bank[i])];
      out := out + [LowByte(bank[i])];
      i := i + 1;
      n := n - 1;
    }
  }

  /**
    The `while (usNRegs > 0)` write loop of the holding callback: each pair of
    buffer bytes becomes one cell, high byte first, in ascending order.
   */
  method WriteLoop(bank: seq<u16>, index: nat, nregs: u16, buffer: seq<byte>) returns (cells: seq<u16>)
    requires index + nregs <= |bank|
    requires |buffer| >= 2 * nregs
    ensures cells == Overwrite(bank, index, Unpack(buffer[..2 * nregs]))
  {
    var i := index;
    var n := nregs;
    var p := 0;
    cells := bank;
    while n > 0
      invariant 0 <= n <= nregs
      invariant i == index + (nregs - n)
      invariant p == 2 * (i - index)
      invariant |cells| == |bank|
      invariant forall j :: 0 <= j < |cells| ==>
                  cells[j] == if index <= j < i then Combine(buffer[2 * (j - index)], buffer[2 * (j - index) + 1])
                              else bank[j]
    {
      cells := cells[i := Combine(buffer[p], buffer[p + 1])];
      p := p + 2;
      i := i + 1;
      n := n - 1;
    }
    var spliced := Overwrite(bank, index, Unpack(buffer[..2 * nregs]));
    forall j | 0 <= j < |cells|
      ensures cells[j] == spliced[j]
    {
      if index <= j < index + nregs {
        assert buffer[..2 * nregs][2 * (j - index)] == buffer[2 * (j - index)];
        assert buffer[..2 * nregs][2 * (j - index) + 1] == buffer[2 * (j - index) + 1];
      }
    }
  }

  /** The input callback as the C function runs it: test, then loop. */
  method ServeInput(s: Store, address: u16, nregs: u16) returns (status: ErrorCode, written: seq<byte>)
    requires s.Valid()
    ensures Reply(status, written, s) == InputCallback(s, address, nregs)
  {
    status := NoErr;
    written := [];
    if address >= InputStart && address + nregs <= InputStart + InputNRegs {
      written := ReadLoop(s.input, address - InputStart, nregs);
    } else {
      status := NoReg;
    }
  }

  /** The holding callback as the C function runs it: test, switch on the mode, loop. */
  method ServeHolding(s: Store, address: u16, nregs: u16, mode: RegisterMode, buffer: seq<byte>)
    returns (status: ErrorCode, written: seq<byte>, holding: seq<u16>)
    requires s.Valid()
    requires mode == WriteRegs && HoldingSpanAccepted(address, nregs) ==> |buffer| >= 2 * nregs
    ensures Reply(status, written, s.(holding := holding)) == HoldingCallback(s, address, nregs, mode, buffer)
  {
    status := NoErr;
    written := [];
    holding := s.holding;
    if address >= HoldingStart && address + nregs <= HoldingStart + HoldingNRegs {
      var index := address - HoldingStart;
      match mode
      case ReadRegs =>
        written := ReadLoop(s.holding, index, nregs);
      case WriteRegs =>
        holding := WriteLoop(s.holding, index, nregs, buffer);
    } else {
      status := NoReg;
    }
  }

  /** A non-empty span is accepted exactly when its first and last cells are input registers. */
  lemma InputSpanWithinBank(s: Store, address: u16, nregs: u16)
    requires s.Valid()
    requires nregs > 0
    ensures InputCallback(s, address, nregs).status == NoErr
            <==> IsInputAddress(address) && IsInputAddress(address + nregs - 1)
  {
  }

  /** A non-empty span is accepted exactly when its first and last cells are holding registers. */
  lemma HoldingSpanWithinBank(s: Store, address: u16, nregs: u16, mode: RegisterMode, buffer: seq<byte>)
    requires s.Valid()
    requires mode == WriteRegs && HoldingSpanAccepted(address, nregs) ==> |buffer| >= 2 * nregs
    requires nregs > 0
    ensures HoldingCallback(s, address, nregs, mode, buffer).status == NoErr
            <==> IsHoldingAddress(address) && IsHoldingAddress(address + nregs - 1)
  {
  }

  /** Writing a span of holding registers and reading it back returns the bytes written. */
  lemma HoldingRoundTrip(s: Store, address: u16, nregs: u16, bytes: seq<byte>)
    requires s.Valid()
    requires HoldingSpanAccepted(address, nregs)
    requires |bytes| == 2 * nregs
    ensures var w := HoldingCallback(s, address, nregs, WriteRegs, bytes);
            && w.status == NoErr
            && HoldingCallback(w.store, address, nregs, ReadRegs, []).written == bytes
  {
    var index := address - HoldingStart;
    assert bytes[..2 * nregs] == bytes;
    var cells := Unpack(bytes);
    var w := HoldingCallback(s, address, nregs, WriteRegs, bytes);
    assert w.store.holding == Overwrite(s.holding, index, cells);
    OverwrittenSpan(s.holding, index, cells);
    PackUnpack(bytes);
  }

  /** Reading back what a previous read returned, after writing it, changes nothing. */
  lemma WriteBackReadIsIdentity(s: Store, address: u16, nregs: u16)
    requires s.Valid()
    requires HoldingSpanAccepted(address, nregs)
    ensures var r := HoldingCallback(s, address, nregs, ReadRegs, []);
            HoldingCallback(s, address, nregs, WriteRegs, r.written).store == s
  {
    var index := address - HoldingStart;
    var span := s.holding[index .. index + nregs];
    var image := HoldingCallback(s, address, nregs, ReadRegs, []).written;
    assert image == Pack(span);
    assert image[..2 * nregs] == image;
    UnpackPack(span);
    OverwriteOwnSpan(s.holding, index, nregs);
    assert HoldingCallback(s, address, nregs, WriteRegs, image).store.holding
        == Overwrite(s.holding, index, span);
  }

  /** Putting a span back where it was taken from gives the bank back. */
  lemma OverwriteOwnSpan(bank: seq<u16>, index: nat, n: nat)
    requires index + n <= |bank|
    ensures Overwrite(bank, index, bank[index .. index + n]) == bank
  {
    var r := Overwrite(bank, index, bank[index .. index + n]);
    forall j | 0 <= j < |bank|
      ensures r[j] == bank[j]
    {
    }
  }

  /** The span just overwritten holds exactly the new cells. */
  lemma OverwrittenSpan(bank: seq<u16>, index: nat, cells: seq<u16>)
    requires index + |cells| <= |bank|
    ensures Overwrite(bank, index, cells)[index .. index + |cells|] == cells
  {
    var r := Overwrite(bank, index, cells);
    forall k | 0 <= k < |cells|
      ensures r[index .. index + |cells|][k] == cells[k]
    {
      assert r[index + k] == cells[k];
    }
  }

  /** A write leaves the image of every span it does not overlap unchanged. */
  lemma WriteFramesDisjointReads(s: Store, address: u16, nregs: u16, bytes: seq<byte>, other: u16, count: u16)
    requires s.Valid()
    requires HoldingSpanAccepted(address, nregs) && |bytes| == 2 * nregs
    requires other + count <= address || address + nregs <= other
    ensures var w := HoldingCallback(s, address, nregs, WriteRegs, bytes);
            HoldingCallback(w.store, other, count, ReadRegs, []) == HoldingCallback(s, other, count, ReadRegs, []).(store := w.store)
  {
    var w := HoldingCallback(s, address, nregs, WriteRegs, bytes);
    if HoldingSpanAccepted(other, count) {
      var index := other - HoldingStart;
      forall j | index <= j < index + count
        ensures w.store.holding[j] == s.holding[j]
      {
        assert !(address - 1 <= j < address - 1 + nregs);
      }
      assert w.store.holding[index .. index + count] == s.holding[index .. index + count];
    }
  }

  /** A write whose span runs past the last holding register changes no cell at all. */
  lemma OverrunningWriteChangesNothing(s: Store, bytes: seq<byte>)
    requires s.Valid()
    ensures var r := HoldingCallback(s, 30, 5, WriteRegs, bytes);
            r.status == NoReg && r.store == s
  {
  }
}

=== FILE: modbus_task.dfy ===
/**
  The Modbus task: initialise the stack, set the slave identification,
  enable the stack, poll until the run flag in holding register cell 0 is
  seen cleared, disable and close the stack, wait, and start over.

  The freemodbus calls are represented by the status values they return
  (`StackResults`) and by the calls recorded in a trace. The run flag is the
  sequence of values of holding cell 0 that the loop test reads after each
  poll; whoever writes the cell (a Modbus master through the holding
  callback, or another task) is outside this model.
 */
module ModbusTask {
  import opened Registers
  import opened BigEndian
  import opened Callbacks

  /** Serial framing of the stack (`eMBMode`). */
  datatype TransmissionMode = Rtu | Ascii | Tcp

  /** Parity of the serial line (`eMBParity`). */
  datatype Parity = NoParity | OddParity | EvenParity

  /** One call of the task into the protocol stack or the scheduler. */
  datatype Call =
    | Init(mode: TransmissionMode, slaveAddress: byte, port: byte, baudRate: nat, parity: Parity)
    | SetSlaveId(slaveId: byte, isRunning: bool, additional: seq<byte>)
    | Enable
    | Poll
    | Disable
    | Close
    | Delay(ticks: nat)

  /** ASCII framing, slave address 10, port 1, 38400 baud, even parity. */
  const InitCall: Call := Init(Ascii, 0x0A, 1, 38400, EvenParity)

  /** Slave ID 0x34, run indicator on, three additional identification bytes. */
  const SetSlaveIdCall: Call := SetSlaveId(0x34, true, [0xAA, 0xBB, 0xCC])

  /** Ticks the task waits at the end of every cycle, whatever happened in it. */
  const RetryDelay: nat := 50

  /** What the task does once the stack has been initialised and is to be shut down. */
  const Shutdown: seq<Call> := [Disable, Close, Delay(RetryDelay)]

  /** The status values returned by the three set-up calls of one cycle. */
  datatype StackResults = StackResults(init: ErrorCode, setSlaveId: ErrorCode, enable: ErrorCode) {

    /** Every set-up call succeeded, so the poll loop is entered. */
    predicate Ready() {
      init == NoErr && setSlaveId == NoErr && enable == NoErr
    }
  }

  /**
    One cycle of the task: the calls it made, how many polls ran, whether it
    reached the final delay (it has not when the run flag was never seen
    cleared), and the register store it leaves.
   */
  datatype Cycle = Cycle(trace: seq<Call>, polls: nat, finished: bool, store: Store)

  /** `usRegInputBuf[0]++` on a `USHORT` cell. */
  function Increment(c: u16): (r: u16)
    ensures c < 0xFFFF ==> r == c + 1
    ensures c == 0xFFFF ==> r == 0
  {
    (c + 1) % 0x1_0000
  }

  /** The number of times a call occurs in a trace. */
  function Occurrences(trace: seq<Call>, c: Call): (n: nat)
  {
    if trace == [] then 0
    else (if trace[0] == c then 1 else 0) + Occurrences(trace[1..], c)
  }

  /** `n` consecutive polls. */
  function Polls(n: nat): (calls: seq<Call>)
    ensures |calls| == n
    ensures forall i :: 0 <= i < n ==> calls[i] == Poll
  {
    seq(n, _ => Poll)
  }

  /**
    The polls the do-while loop makes when the loop test reads `flags`, in
    order: it stops right after the first poll whose test reads 0, and makes
    one poll per observation while none is 0.
   */
  function PollsUntilStop(flags: seq<u16>): (n: nat)
    ensures n <= |flags|
    ensures forall k :: 0 <= k < n - 1 ==> flags[k] != 0
    ensures 0 in flags <==> 0 < n && flags[n - 1] == 0
    ensures 0 !in flags ==> n == |flags|
  {
    if flags == [] then 0
    else if flags[0] == 0 then 1
    else 1 + PollsUntilStop(flags[1..])
  }

  /**
    The store after the poll loop: the run flag was set to 1 on entry and
    holds the last value the loop test read; the poll counter has advanced
    once per poll.
   */
  function AfterPolling(s: Store, flags: seq<u16>, polls: nat): (t: Store)
    requires s.Valid()
    requires polls <= |flags|
    ensures t.Valid()
  {
    var flag := if polls == 0 then 1 else flags[polls - 1];
    s.(input := s.input[0 := (s.input[0] + polls) % 0x1_0000], holding := s.holding[0 := flag])
  }

  /** One pass of the task's outer `for (;;)` loop. */
  function RunCycle(s: Store, results: StackResults, flags: seq<u16>): (c: Cycle)
    requires s.Valid()
    ensures c.store.Valid()
    ensures |c.trace| >= 2 && c.trace[0] == InitCall
    ensures c.finished <==> !(results.Ready() && 0 !in flags)
    ensures !results.Ready() ==> c.polls == 0 && c.store == s
    ensures c.store.input[0] == (s.input[0] + c.polls) % 0x1_0000
  {
    if results.init != NoErr then
      Cycle([InitCall, Delay(RetryDelay)], 0, true, s)
    else if results.setSlaveId != NoErr then
      Cycle([InitCall, SetSlaveIdCall] + Shutdown, 0, true, s)
    else if results.enable != NoErr then
      Cycle([InitCall, SetSlaveIdCall, Enable] + Shutdown, 0, true, s)
    else
      var n := PollsUntilStop(flags);
      var stopped := 0 in flags;
      var trace := [InitCall, SetSlaveIdCall, Enable] + Polls(n) + (if stopped then Shutdown else []);
      Cycle(trace, n, stopped, AfterPolling(s, flags, n))
  }

  /**
    The do-while poll loop as the task runs it: holding cell 0 is set to 1,
    then each pass polls, bumps the counter in input cell 0 and reads the
    flag.
   */
  method PollLoop(s: Store, flags: seq<u16>) returns (polls: nat, stopped: bool, store: Store)
    requires s.Valid()
    ensures polls == PollsUntilStop(flags)
    ensures stopped <==> 0 in flags
    ensures store == AfterPolling(s, flags, polls)
  {
    var input := s.input;
    var holding := s.holding[0 := 1];
    polls := 0;
    while holding[0] != 0 && polls < |flags|
      invariant polls <= |flags|
      invariant |input| == |s.input| && |holding| == |s.holding|
      invariant input == s.input[0 := (s.input[0] + polls) % 0x1_0000]
      invariant holding == s.holding[0 := if polls == 0 then 1 else flags[polls - 1]]
      invariant forall k :: 0 <= k < polls - 1 ==> flags[k] != 0
      decreases |flags| - polls
    {
      // eMBPoll() runs here; the callbacks it serves are modelled in Callbacks.
      input := input[0 := Increment(input[0])];
      holding := holding[0 := flags[polls]];
      polls := polls + 1;
    }
    stopped := holding[0] == 0;
    store := Store(input, holding);
  }

  /** One cycle with the control flow of the task: nested tests, then the loop. */
  method TaskCycle(s: Store, results: StackResults, flags: seq<u16>) returns (c: Cycle)
    requires s.Valid()
    ensures c == RunCycle(s, results, flags)
  {
    var trace := [InitCall];
    var polls := 0;
    var finished := true;
    var store := s;
    if results.init == NoErr {
      trace := trace + [SetSlaveIdCall];
      if results.setSlaveId == NoErr {
        trace := trace + [Enable];
        if results.enable == NoErr {
          var stopped;
          polls, stopped, store := PollLoop(s, flags);
          trace := trace + Polls(polls);
          finished := stopped;
        }
      }
      if finished {
        trace := trace + [Disable, Close];
      }
    }
    if finished {
      trace := trace + [Delay(RetryDelay)];
    }
    c := Cycle(trace, polls, finished, store);
  }

  /** The inputs of one cycle: the set-up results and the run-flag observations. */
  datatype Round = Round(results: StackResults, flags: seq<u16>)

  /**
    A bounded prefix of the task's endless loop: the cycles run one after the
    other on the store the previous one left, until the rounds are used up or
    a cycle is still polling.
   */
  function RunRounds(s: Store, rounds: seq<Round>): (c: Cycle)
    requires s.Valid()
    ensures c.store.Valid()
    ensures c.trace == [] <==> rounds == []
    ensures rounds != [] ==> c.trace[0] == InitCall
    decreases |rounds|
  {
    if rounds == [] then
      Cycle([], 0, true, s)
    else
      var first := RunCycle(s, rounds[0].results, rounds[0].flags);
      if !first.finished then first
      else
        var rest := RunRounds(first.store, rounds[1..]);
        Cycle(first.trace + rest.trace, first.polls + rest.polls, rest.finished, rest.store)
  }

  /** Over consecutive cycles the poll counter advances by the total number of polls, modulo 2^16. */
  lemma {:induction false} RoundsAdvanceCounter(s: Store, rounds: seq<Round>)
    requires s.Valid()
    ensures var c := RunRounds(s, rounds);
            c.store.input[0] == (s.input[0] + c.polls) % 0x1_0000
    decreases |rounds|
  {
    if rounds != [] {
      var first := RunCycle(s, rounds[0].results, rounds[0].flags);
      if first.finished {
        var rest := RunRounds(first.store, rounds[1..]);
        RoundsAdvanceCounter(first.store, rounds[1..]);
        CounterWraps(s.input[0], first.polls, rest.polls, first.store.input[0], rest.store.input[0]);
        assert RunRounds(s, rounds).store.input[0] == rest.store.input[0];
        assert RunRounds(s, rounds).polls == first.polls + rest.polls;
      }
    }
  }

  /**
    When every round ran to its final delay, the stack was initialised once
    per round and the trace ends with the delay.
   */
  lemma {:induction false} RoundsInitOncePerRound(s: Store, rounds: seq<Round>)
    requires s.Valid()
    ensures var c := RunRounds(s, rounds);
            && (c.finished ==> Occurrences(c.trace, InitCall) == |rounds|)
            && (c.finished && c.trace != [] ==> c.trace[|c.trace| - 1] == Delay(RetryDelay))
    decreases |rounds|
  {
    if rounds != [] {
      var first := RunCycle(s, rounds[0].results, rounds[0].flags);
      if first.finished {
        var rest := RunRounds(first.store, rounds[1..]);
        RoundsInitOncePerRound(first.store, rounds[1..]);
        CycleStartsOnce(s, rounds[0].results, rounds[0].flags);
        FinishedCycleEndsWithDelay(s, rounds[0].results, rounds[0].flags);
        OccurrencesAppend(first.trace, rest.trace, InitCall);
      }
    }
  }

  /** Advancing a 16-bit counter in two steps is advancing it by their sum. */
  lemma CounterWraps(c: nat, x: nat, y: nat, mid: nat, last: nat)
    requires mid == (c + x) % 0x1_0000
    requires last == (mid + y) % 0x1_0000
    ensures last == (c + (x + y)) % 0x1_0000
  {
    var q := (c + x) / 0x1_0000;
    assert mid + y == (c + (x + y)) - q * 0x1_0000;
  }

  lemma {:induction false} OccurrencesAppend(a: seq<Call>, b: seq<Call>, c: Call)
    ensures Occurrences(a + b, c) == Occurrences(a, c) + Occurrences(b, c)
  {
    if a == [] {
      assert a + b == b;
    } else {
      assert (a + b)[1..] == a[1..] + b;
      OccurrencesAppend(a[1..], b, c);
    }
  }

  /** A call occurs in a trace exactly when it is counted at least once there. */
  lemma {:induction false} OccursIffCounted(trace: seq<Call>, c: Call)
    ensures c in trace <==> Occurrences(trace, c) > 0
  {
    if trace != [] {
      OccursIffCounted(trace[1..], c);
      assert trace == [trace[0]] + trace[1..];
    }
  }

  /** Every cycle initialises the stack exactly once. */
  lemma CycleStartsOnce(s: Store, results: StackResults, flags: seq<u16>)
    requires s.Valid()
    ensures Occurrences(RunCycle(s, results, flags).trace, InitCall) == 1
  {
    var c := RunCycle(s, results, flags);
    var rest := c.trace[1..];
    assert c.trace == [InitCall] + rest;
    OccurrencesAppend([InitCall], rest, InitCall);
    assert Occurrences([InitCall], InitCall) == 1 by {
      assert [InitCall][1..] == [];
    }
    if results.Ready() {
      var head := [SetSlaveIdCall, Enable];
      var tail := if 0 in flags then Shutdown else [];
      assert rest == head + Polls(c.polls) + tail;
      OccurrencesAppend(head + Polls(c.polls), tail, InitCall);
      OccurrencesAppend(head, Polls(c.polls), InitCall);
      PollsCounted(c.polls, InitCall);
      OccursIffCounted(head, InitCall);
      OccursIffCounted(tail, InitCall);
      assert Occurrences(rest, InitCall) == 0;
    } else {
      var calls :=
        if results.init != NoErr then [Delay(RetryDelay)]
        else if results.setSlaveId != NoErr then [SetSlaveIdCall, Disable, Close, Delay(RetryDelay)]
        else [SetSlaveIdCall, Enable, Disable, Close, Delay(RetryDelay)];
      assert rest == calls;
      assert InitCall !in calls;
      OccursIffCounted(calls, InitCall);
    }
  }

  /** The trace records exactly as many polls as the cycle counts. */
  lemma PollsRecorded(s: Store, results: StackResults, flags: seq<u16>)
    requires s.Valid()
    ensures var c := RunCycle(s, results, flags);
            Occurrences(c.trace, Poll) == c.polls
  {
    var c := RunCycle(s, results, flags);
    if results.Ready() {
      var head := [InitCall, SetSlaveIdCall, Enable];
      var tail := if 0 in flags then Shutdown else [];
      assert c.trace == head + Polls(c.polls) + tail;
      OccurrencesAppend(head + Polls(c.polls), tail, Poll);
      OccurrencesAppend(head, Polls(c.polls), Poll);
      PollsCounted(c.polls, Poll);
      OccursIffCounted(head, Poll);
      OccursIffCounted(tail, Poll);
    } else {
      OccursIffCounted(c.trace, Poll);
    }
  }

  lemma {:induction false} PollsCounted(n: nat, c: Call)
    ensures Occurrences(Polls(n), c) == if c == Poll then n else 0
  {
    if n > 0 {
      assert Polls(n)[1..] == Polls(n - 1);
      PollsCounted(n - 1, c);
    }
  }

  /**
    A cycle whose set-up succeeded and whose loop ended polled at least once,
    stopped right after the first test that read 0, and leaves the run flag
    cleared.
   */
  lemma CycleStopsAtFirstClear(s: Store, results: StackResults, flags: seq<u16>)
    requires s.Valid()
    requires results.Ready()
    ensures var c := RunCycle(s, results, flags);
            c.finished ==>
              && 1 <= c.polls <= |flags|
              && flags[c.polls - 1] == 0
              && (forall k :: 0 <= k < c.polls - 1 ==> flags[k] != 0)
              && c.store.holding[0] == 0
  {
  }

  /**
    The loop sets the run flag to 1 before its first poll, so the value the
    flag had when the cycle began (a 0 left by the previous cycle, say) makes
    no difference to the calls, the polls or whether the cycle ends.
   */
  lemma RunFlagSetOnEntry(s: Store, results: StackResults, flags: seq<u16>, x: u16)
    requires s.Valid()
    ensures var c := RunCycle(s, results, flags);
            var d := RunCycle(s.(holding := s.holding[0 := x]), results, flags);
            d.trace == c.trace && d.polls == c.polls && d.finished == c.finished
    ensures results.Ready() && flags != [] ==> RunCycle(s, results, flags).polls >= 1
    ensures results.Ready() ==> RunCycle(s, results, []).store.holding[0] == 1
  {
  }

  /** The task itself writes no register other than the poll counter and the run flag. */
  lemma CycleWritesOnlyControlCells(s: Store, results: StackResults, flags: seq<u16>)
    requires s.Valid()
    ensures var c := RunCycle(s, results, flags);
            && (forall i :: 1 <= i < |s.input| ==> c.store.input[i] == s.input[i])
            && (forall i :: 1 <= i < |s.holding| ==> c.store.holding[i] == s.holding[i])
  {
  }

  /**
    The set-up calls run in order and stop at the first failure: the slave
    ID is set only after a successful initialisation, and the stack is
    enabled only after both earlier calls succeeded.
   */
  lemma SetupStopsAtFirstFailure(s: Store, results: StackResults, flags: seq<u16>)
    requires s.Valid()
    ensures var c := RunCycle(s, results, flags);
            SetSlaveIdCall in c.trace <==> results.init == NoErr
    ensures var c := RunCycle(s, results, flags);
            Enable in c.trace <==> results.init == NoErr && results.setSlaveId == NoErr
    ensures var c := RunCycle(s, results, flags);
            results.init == NoErr ==> |c.trace| >= 2 && c.trace[..2] == [InitCall, SetSlaveIdCall]
    ensures var c := RunCycle(s, results, flags);
            results.init == NoErr && results.setSlaveId == NoErr ==>
              |c.trace| >= 3 && c.trace[..3] == [InitCall, SetSlaveIdCall, Enable]
  {
  }

  /**
    The whole call sequence of a cycle, path by path: a failed set-up call
    is followed only by the shutdown the task owes at that point, and a
    ready cycle makes nothing but polls between enabling and shutting down.
   */
  lemma CycleTraceShape(s: Store, results: StackResults, flags: seq<u16>)
    requires s.Valid()
    ensures var c := RunCycle(s, results, flags);
            results.init != NoErr ==> c.trace == [InitCall, Delay(RetryDelay)]
    ensures var c := RunCycle(s, results, flags);
            results.init == NoErr && results.setSlaveId != NoErr ==>
              c.trace == [InitCall, SetSlaveIdCall, Disable, Close, Delay(RetryDelay)]
    ensures var c := RunCycle(s, results, flags);
            results.init == NoErr && results.setSlaveId == NoErr && results.enable != NoErr ==>
              c.trace == [InitCall, SetSlaveIdCall, Enable, Disable, Close, Delay(RetryDelay)]
    ensures var c := RunCycle(s, results, flags);
            results.Ready() ==>
              && |c.trace| == 3 + c.polls + (if c.finished then 3 else 0)
              && (forall i :: 3 <= i < 3 + c.polls ==> c.trace[i] == Poll)
  {
  }

  /** A failed initialisation is followed only by the delay: no poll, no disable, no close. */
  lemma InitFailureSkipsShutdown(s: Store, results: StackResults, flags: seq<u16>)
    requires s.Valid()
    requires results.init != NoErr
    ensures var c := RunCycle(s, results, flags);
            && c.finished
            && SetSlaveIdCall !in c.trace && Enable !in c.trace
            && Disable !in c.trace && Close !in c.trace && Poll !in c.trace
            && c.trace[|c.trace| - 1] == Delay(RetryDelay)
  {
  }

  /**
    Once initialisation has succeeded and the cycle is over, the stack is
    disabled, then closed, then the task waits, whichever of the later set-up
    calls failed.
   */
  lemma ShutdownFollowsInit(s: Store, results: StackResults, flags: seq<u16>)
    requires s.Valid()
    requires results.init == NoErr
    requires !results.Ready() || 0 in flags
    ensures var c := RunCycle(s, results, flags);
            && c.finished
            && |c.trace| >= 5
            && c.trace[|c.trace| - 3..] == [Disable, Close, Delay(RetryDelay)]
  {
    var c := RunCycle(s, results, flags);
    assert c.trace[|c.trace| - 3..] == Shutdown;
  }

  /** The stack is polled only in a cycle whose three set-up calls all succeeded. */
  lemma PollOnlyWhenReady(s: Store, results: StackResults, flags: seq<u16>)
    requires s.Valid()
    ensures Poll in RunCycle(s, results, flags).trace ==> results.Ready()
  {
    var c := RunCycle(s, results, flags);
    if !results.Ready() {
      forall i | 0 <= i < |c.trace|
        ensures c.trace[i] != Poll
      {
      }
    }
  }

  /** Every cycle that is not still polling ends with the retry delay. */
  lemma FinishedCycleEndsWithDelay(s: Store, results: StackResults, flags: seq<u16>)
    requires s.Valid()
    ensures var c := RunCycle(s, results, flags);
            c.finished ==> c.trace[|c.trace| - 1] == Delay(RetryDelay)
  {
  }

  /** Writing 0 to holding register address 1 is how a master clears the run flag. */
  lemma MasterClearsRunFlag(s: Store)
    requires s.Valid()
    ensures HoldingCallback(s, 1, 1, WriteRegs, [0, 0]).store.holding[0] == 0
  {
  }

  /**
    After a cycle that started from the zero-initialised store and made `n`
    polls, a master reading input register 1000 sees `n` modulo 2^16.
   */
  lemma PollCountVisibleToMaster(results: StackResults, flags: seq<u16>)
    ensures var c := RunCycle(InitialStore(), results, flags);
            InputCallback(c.store, 1000, 1).written == Pack([c.polls % 0x1_0000])
  {
    var c := RunCycle(InitialStore(), results, flags);
    var r := InputCallback(c.store, 1000, 1);
    assert c.store.input[0 .. 1] == [c.polls % 0x1_0000];
  }
}

=== FILE: registers.dfy ===
/**
  The register store of the Modbus slave: two statically allocated banks of
  16-bit cells (input registers and holding registers), their protocol start
  addresses, and the status and mode enumerations the callbacks exchange with
  the freemodbus stack.
 */
module Registers {

  /** A C `USHORT`: one 16-bit register cell or a 16-bit protocol quantity. */
  type u16 = x: int | 0 <= x < 0x1_0000

  /** A C `UCHAR`: one byte of a Modbus frame buffer. */
  type byte = x: int | 0 <= x < 0x100

  /** Protocol address of input register cell 0, and the number of cells. */
  const InputStart: int := 1000
  const InputNRegs: int := 64

  /** Protocol address of holding register cell 0, and the number of cells. */
  const HoldingStart: int := 1
  const HoldingNRegs: int := 32

  /** The status codes of freemodbus (`eMBErrorCode`). */
  datatype ErrorCode =
    | NoErr       // MB_ENOERR
    | NoReg       // MB_ENOREG: illegal register address
    | Inval       // MB_EINVAL: illegal argument
    | PortErr     // MB_EPORTERR: porting layer error
    | NoRes       // MB_ENORES: insufficient resources
    | Io          // MB_EIO: I/O error
    | IllState    // MB_EILLSTATE: protocol stack in illegal state
    | TimedOut    // MB_ETIMEDOUT: timeout

  /** Direction of a holding-register access (`eMBRegisterMode`). */
  datatype RegisterMode = ReadRegs | WriteRegs

  /** Both banks, as the two static arrays `usRegInputBuf` and `usRegHoldingBuf`. */
  datatype Store = Store(input: seq<u16>, holding: seq<u16>) {

    /** The arrays have their declared sizes; they are never resized. */
    predicate Valid() {
      |input| == InputNRegs && |holding| == HoldingNRegs
    }
  }

  /** Storage with static duration is zero-initialised in C. */
  function InitialStore(): (s: Store)
    ensures s.Valid()
    ensures forall i :: 0 <= i < |s.input| ==> s.input[i] == 0
    ensures forall i :: 0 <= i < |s.holding| ==> s.holding[i] == 0
  {
    Store(seq(InputNRegs, _ => 0), seq(HoldingNRegs, _ => 0))
  }

  /** A protocol address that names an input register cell. */
  predicate IsInputAddress(a: int) {
    InputStart <= a < InputStart + InputNRegs
  }

  /** A protocol address that names a holding register cell. */
  predicate IsHoldingAddress(a: int) {
    HoldingStart <= a < HoldingStart + HoldingNRegs
  }
}
